=== FILE: README.md ===
# Parking-bay monitor: debounced car detector, movement detector and floodlight

This project models the control core of a small Raspberry Pi parking-bay
monitor (`run.py`). A proximity sensor feeds a **car detector**. The
detector turns the noisy raw reading into the lifecycle
`Absent -> Detecting -> Detected -> Parked -> Leaving -> Absent`. A change
of reading that disagrees with the stage moves it at once (an edge). Time accumulated in a stage confirms
the stage once it is strictly past a configured window. Every transition is
checked against a fixed table of eight legal edges; anything else raises.
Transitions fire `carPresent`, `carParked` and `carLeft`. A **movement
detector** turns a passive-infrared reading into `movementDetected` /
`movementCeased` edges. A **floodlight controller** keeps two flags set by
those events and switches the light on while movement is seen next to a
parked car, then off once its timer is past the shine duration or the car
has gone. The main loop ticks the three components in that order.

Modelling choices:

- Each component is an immutable record; each `tick` is a pure function. Raw
  sensor readings are parameters of `tick` and of the constructors. The
  floodlight output pin is the `lightOn` field.
- Time (the elapsed time per tick and every window) is an exact `real`.
  There is no sign restriction, as in the source. Properties that need
  non-negative windows say so.
- An event channel is an ordered list of event tags returned by `tick`. The
  floodlight's subscriptions are functions that deliver such a list in order
  (`Wiring.DeliverCar`, `Wiring.DeliverMovement`).
- `_transition` raising is an `Err` result. The detector's `Tick` returns a
  result and is proved always to be `Ok`.
- The detector's step also records the transitions it performed, in order:
  the messages `_transition` prints. This is how "at most one transition per
  tick" and "the timer is reset exactly when a transition happened" are
  stated.

Timing follows the code's strict `>`. With windows of 2 s and 5 s and
one poll per second, an arrival reaches `Detected` after tick 4 and
`Parked` after tick 10 (`PresenceTrace.ArrivalTiming`). Between
transitions `timeInState` grows by exactly the `elapsed` passed to each
tick, whatever its sign.

## Model

| member | source | states |
|---|---|---|
| `Presence.Allowed` | run.py:86-108 | the check `_transition` performs accepts exactly the eight edges of the legal table |
| `Presence.Fired` | run.py:115-120 | `carPresent` exactly on entering `Detected`, `carParked` exactly on `Detected->Parked`, `carLeft` exactly on `Leaving->Absent`; at most one event for a legal edge |
| `Presence.Transition` | run.py:79-120 | succeeds exactly on the eight edges of the legal table (`Edges`) and otherwise fails with the offending pair; on success the stage is the target, the timer is 0, and `carPresent`/`carParked`/`carLeft` fire exactly for entering `Detected`, `Detected->Parked`, `Leaving->Absent`, at most one of them |
| `Presence.OnSensorPositive` | run.py:52-59 | never raises; afterwards the stage agrees with a positive reading (`Detecting`, `Detected` or `Parked`); it moves, by one legal edge, exactly when the stage did not already agree; fires nothing |
| `Presence.OnSensorNegative` | run.py:61-71 | never raises; afterwards the stage agrees with a negative reading (`Absent` or `Leaving`); it moves, by one legal edge, exactly when the stage did not already agree; fires nothing |
| `Presence.Expired` | run.py:132-144 | a window can only run out in a stage that has a timed edge (`Detecting`, `Detected`, `Leaving`) |
| `Presence.EdgeStep` | run.py:124-130 | remembers the reading; moves at most once, only when the reading changed, and only along a sensor-driven (non-timed) legal edge; after a change the stage agrees with the new reading; an unchanged reading leaves the detector as it was, and a changed one moves exactly when the stage disagreed with the new reading |
| `Presence.TimeStep` | run.py:132-144 | moves exactly when the timed stage's window is strictly exceeded, along one of the three timed edges; fires `carPresent`, `carParked`, `carLeft` exactly for Detecting, Detected, Leaving confirmations |
| `Presence.Tick` | run.py:122-144 | never raises; every transition taken is legal and they chain from the old stage to the new; the stage changes iff some transition was taken; the timer is 0 after a transition and grew by exactly `elapsed` otherwise; at most one event; `carPresent` iff the tick entered `Detected`, `carParked` iff it took `Detected->Parked`, `carLeft` iff it took `Leaving->Absent`; `Parked`/`Leaving` occupancy changes only with `carParked`/`carLeft`; with an unchanged reading it moves exactly when the window is strictly exceeded, and from a coherent state a changed reading always moves it; with non-negative windows it takes at most one transition |
| `Presence.IsParked` | run.py:76-77 | `isParked` holds exactly in the one stage that is both occupied and agrees with a positive reading, `Parked` |
| `Presence.Init` | run.py:47-50 | as written: seeds `Parked` on a positive reading, `Absent` otherwise, timer 0, remembered reading always false |
| `Presence.InitSeeded` | run.py:47-50 | corrected seed: same stage, remembered reading taken from the seeding reading, so stage and reading agree |
| `PresenceTrace.Run` | run.py:122-144 | over any sequence of readings, every transition taken is one of the eight legal edges and they form a path from the start stage to the final one |
| `PresenceTrace.TickPreservesCoherent` | run.py:124-144 | a tick keeps `Detecting`/`Detected`/`Parked` iff the last reading was true |
| `PresenceTrace.TickFromSeed` | run.py:124-144 | from the `Parked` seed with a false remembered reading, a true reading restores agreement and a false one leaves the detector `Parked` with a false remembered reading, silently |
| `PresenceTrace.RunPreservesCoherent` | run.py:122-144 | agreement between stage and last reading holds along any run |
| `PresenceTrace.SeedIncoherentIff` | run.py:48-130 | along a run, the stage disagrees with the last reading exactly when it started in the disagreeing seed and every reading since was false; it is then `Parked` and has fired nothing |
| `PresenceTrace.ReachableFromInit` | run.py:47-50 | from the as-written start-up, `Parked` with a false last reading is reachable exactly when the car was seen at start-up and never since; every other reachable state agrees |
| `PresenceTrace.ReachableFromSeeded` | run.py:47-50 | from the corrected start-up every reachable state agrees with the last reading |
| `PresenceTrace.SeedStuckParked` | run.py:48 | as written: a car seen at start-up and gone by the first tick stays `Parked`, with no event, for as long as the sensor reads false |
| `PresenceTrace.SeededLeavesAtOnce` | run.py:61-71 | corrected: with a non-negative leaving window, the same start-up goes to `Leaving` on the first false reading |
| `PresenceTrace.TickMovesOnce` | run.py:113-144 | with non-negative windows a tick takes at most one transition, so the new stage is the old one or one legal edge away, and `carLeft` fires iff the tick went `Leaving->Absent` |
| `PresenceTrace.SteadyReadingConfirms` | run.py:132-144 | when the reading does not change, a tick moves iff the accumulated time is strictly past the window |
| `PresenceTrace.LeavingBounce` | run.py:122-144 | a `Parked` detector whose last reading was true, with a non-negative leaving window, reading false, then true: `Leaving` then `Parked`, no departure announced, whatever the second elapsed time (the edge is handled before the window) |
| `PresenceTrace.TickTracksOccupancy` | run.py:115-120 | within one tick `carParked` only fires when the bay was free and `carLeft` only when occupied, and replaying them gives the new `Parked`/`Leaving` occupancy |
| `PresenceTrace.RunTracksOccupancy` | run.py:115-120 | over any run the `carParked`/`carLeft` stream alternates and its replay equals the final occupancy |
| `PresenceTrace.ArrivalTiming` | run.py:132-140 | windows 2 s / 5 s, one true reading per second from `Absent`: `Detecting` after tick 3, `Detected` after ticks 4 and 9, `Parked` after tick 10, events exactly `carPresent, carParked` |
| `Movement.Init` | run.py:175-180 | as written: the remembered reading starts false, whatever the sensor says |
| `Movement.Tick` | run.py:185-192 | exactly one event iff the reading differs from the remembered one, `movementDetected` iff the reading is true; afterwards the remembered reading is the reading |
| `Movement.Run` | run.py:185-192 | after a run the remembered reading is the last reading; no more events than ticks |
| `Movement.RunAnnouncesChanges` | run.py:185-192 | over any run the number of events equals the number of reading changes, the events alternate starting from the remembered reading, and an observer ends up believing the last reading |
| `Movement.SteadyReadingsFireNothing` | run.py:187 | readings equal to the remembered one fire nothing and change nothing |
| `Movement.Toggle` | run.py:185-192 | readings true, false, true from start-up fire `movementDetected`, `movementCeased`, `movementDetected` |
| `FloodLight.Init` | run.py:195-204 | the flags come from start-up values; the light starts off with a zero timer |
| `FloodLight.ChangeLightState` | run.py:218-224 | drives the light to the requested state and changes nothing else |
| `FloodLight.OnCarParked` | run.py:206-207 | sets `_carParked` and nothing else |
| `FloodLight.OnCarAbsent` | run.py:209-210 | clears `_carParked` and nothing else |
| `FloodLight.OnMovementDetected` | run.py:212-213 | sets `_movementDetected` and nothing else |
| `FloodLight.OnMovementCeased` | run.py:215-216 | clears `_movementDetected` and nothing else |
| `FloodLight.Tick` | run.py:226-235 | movement next to a parked car restarts the timer at `elapsed` and leaves the light on exactly when `elapsed` is within the shine duration; otherwise a lit light's timer grows by `elapsed` and it stays on exactly when the car is parked and that timer is within the shine duration, and a dark light is left untouched; hence without a parked car the light is off, a lit light's timer is within the shine duration, and the light only comes on through movement next to a parked car; the flags are not changed |
| `FloodLight.QuietShineBounded` | run.py:226-235 | with no movement the light never comes on, and if it stays on its timer is its old value plus all elapsed time and within the shine duration; conversely, with a parked car and non-negative ticks, a lit light stays on while that total is within the shine duration |
| `FloodLight.QuietStaysDark` | run.py:226-235 | with no movement a dark floodlight stays exactly as it is |
| `Wiring.HearCar` | run.py:305-306 | the floodlight's handler for one detector event sets `_carParked` on `carParked`, clears it on `carLeft`, ignores `carPresent`, and changes nothing else |
| `Wiring.HearMovement` | run.py:307-308 | the floodlight's handler for one movement event sets `_movementDetected` exactly on `movementDetected` and changes nothing else |
| `Wiring.DeliverCar` | run.py:305-306 | delivering the detector's events leaves `_carParked` equal to the replayed occupancy and changes nothing else |
| `Wiring.DeliverMovement` | run.py:307-308 | delivering the movement events leaves `_movementDetected` equal to what the stream last announced and changes nothing else |
| `Wiring.Step` | run.py:327-329 | one main-loop pass ticks the car detector with the pass's elapsed time and proximity reading and the movement detector with its infrared reading; from an agreeing state, infrared movement with the bay `Parked` or `Leaving` after the detector's tick lights the floodlight with its timer at the pass's elapsed time, when that is within the shine duration; the pass keeps the floodlight's `_carParked` equal to "detector is `Parked` or `Leaving`", so the light is only on while it is; it keeps the movement flag equal to the movement detector's reading; the lit timer stays within the shine duration |
| `Wiring.Run` | run.py:323-329 | both agreements hold along any number of passes |
| `Wiring.InitAsWritten` | run.py:295-298 | as written: the detector starts `Parked` iff the car is seen, with timer 0 and a false remembered reading; `_carParked` agrees with the detector, while the movement flag is the live infrared reading and the movement detector remembers false; the floodlight starts dark with timer 0 and the given shine duration |
| `Wiring.Init` | run.py:295-298 | corrected start-up: the detector starts `Parked` iff the car is seen, with timer 0, and is coherent; the movement detector remembers the same infrared reading the floodlight's movement flag holds; both agreements hold; the floodlight starts dark with timer 0 and the given shine duration |
| `Wiring.ReachableWired` | run.py:298-306 | from either start-up the floodlight's `_carParked` equals "detector is `Parked` or `Leaving`" on every reachable state |
| `Wiring.ReachableAgrees` | run.py:297-308 | from the corrected start-up the floodlight's movement flag always equals the movement detector's last reading |
| `Wiring.AsWrittenLightStaysOn` | run.py:298 | as written: car present and infrared active at start-up, then infrared quiet on every pass with ticks within the shine duration: the floodlight stays lit on every pass |
| `Wiring.SeededLightGoesOut` | run.py:226-235 | corrected: under the same readings the floodlight never comes on |

## Findings

| source | as written | input that shows it | evidently intended | confidence | as-written member | corrected member |
|---|---|---|---|---|---|---|
| run.py:48 | `_lastWasParked` starts false even when the stage is seeded `Parked` | sensor true at construction, false on every tick after: the detector stays `Parked` and never announces a departure | the remembered reading seeded from the same reading as the stage | medium, not executed | `PresenceTrace.SeedStuckParked` | `Presence.InitSeeded` |
| run.py:178 | `MovementDetector._last` starts false while the floodlight's movement flag is seeded from a live infrared reading (run.py:298) | car present and infrared true at start-up, infrared false on every pass after: no `movementCeased` ever fires and the floodlight stays lit indefinitely | the movement detector's remembered reading seeded from the reading given to the floodlight | medium, not executed | `Wiring.AsWrittenLightStaysOn` | `Wiring.Init` |

The corrected start-up, `Wiring.Init`, uses both corrected seeds. The
step functions are the same for both start-ups. `Presence.Tick`,
`Movement.Tick`, `FloodLight.Tick` and `Wiring.Step` have no
precondition, so their contracts hold from either start-up; the
single-tick lemmas state their own assumptions.

## Left out

- `ParkingIndicator` (run.py:146-172): background threads with `sleep` flashing an output pin. This is concurrency and wall-clock timing. Its `carPresent`/`carParked` subscriptions are therefore not delivered anywhere.
- `PushNotifier` and its subscriptions (run.py:252-291, 315-317, 332-334): mail delivery over SMTP with credentials from a configuration module; network I/O.
- `Logger`, every `print`, and the version printing (run.py:12-14, 83, 238-249, 300, 310-313, 319). The transition messages of run.py:83 are kept as the `moves` list of a detector step.
- Subscriber failures: the model assumes every subscriber returns normally. The `event` module is not part of this model. The source does not settle how handlers are invoked. Events fire with one argument (run.py:116-120, 189-191). The floodlight's handlers take `(sender, arg)` (run.py:206-216). `logger` is bound to the `Logger` class itself (run.py:300), so the handlers subscribed at run.py:310-313 are unbound methods. Depending on `event`, any of these calls may raise out of `tick`. Nothing isolates subscribers, and only `KeyboardInterrupt` is caught (run.py:336), so such a raise would end the main loop.
- The digital I/O board: pin reads, pin writes and the tick LED toggle (run.py:2, 73-74, 182-183, 218-222, 293, 331). Readings are parameters. The floodlight pin is the `lightOn` field.
- The `event` and `switch` modules are not part of this model. An event is a tag appended to an ordered list. A `switch` is a `match`.
- The infinite loop, `sleep` and `KeyboardInterrupt` handling (run.py:321-337). One pass is `Wiring.Step`; `Wiring.Run` is a finite number of passes.
- Wiring.Step: delivers the detector's events to the floodlight after the detector's tick returns, not during it. This is equivalent because the floodlight's handlers only set the floodlight's own flags and the detector never reads them.
- Presence.Tick: elapsed times and windows are exact reals. The rounding of the source's 0.2 s floating-point tick is not modelled.

=== FILE: floodlight.dfy ===
/** The floodlight controller (`FloodLightController` in run.py): two
    flags set by event handlers, and a timer that keeps the light on for
    a bounded time after the last movement while a car is parked. */
module FloodLight {

  /** `lightOn` stands for the floodlight output pin. */
  datatype Controller = Controller(
    shineDuration: real,
    carParked: bool,
    movementDetected: bool,
    timeLightOn: real,
    lightOn: bool)

  /** `__init__`: the flags come from the other components at start-up; the
      light starts off. */
  function Init(shineDuration: real, initialIsParked: bool, initialMovementDetected: bool): (c: Controller)
    ensures !c.lightOn && c.timeLightOn == 0.0 && c.shineDuration == shineDuration
    ensures c.carParked == initialIsParked && c.movementDetected == initialMovementDetected
  {
    Controller(shineDuration, initialIsParked, initialMovementDetected, 0.0, false)
  }

  /** `onCarParked`. */
  function OnCarParked(c: Controller): (r: Controller)
    ensures r.carParked
    ensures r.(carParked := c.carParked) == c
  {
    c.(carParked := true)
  }

  /** `onCarAbsent`. */
  function OnCarAbsent(c: Controller): (r: Controller)
    ensures !r.carParked
    ensures r.(carParked := c.carParked) == c
  {
    c.(carParked := false)
  }

  /** `onMovementDetected`. */
  function OnMovementDetected(c: Controller): (r: Controller)
    ensures r.movementDetected
    ensures r.(movementDetected := c.movementDetected) == c
  {
    c.(movementDetected := true)
  }

  /** `onMovementCeased`. */
  function OnMovementCeased(c: Controller): (r: Controller)
    ensures !r.movementDetected
    ensures r.(movementDetected := c.movementDetected) == c
  {
    c.(movementDetected := false)
  }

  /** `_changeLightState`: drive the output and remember it. */
  function ChangeLightState(c: Controller, on: bool): (r: Controller)
    ensures r.lightOn == on
    ensures r.(lightOn := c.lightOn) == c
  {
    c.(lightOn := on)
  }

  /** `tick(elapsed)`: movement next to a parked car (re)starts the light's
      timer; a lit light accumulates time and goes off once the timer is
      strictly past the shine duration or the car is gone. */
  function Tick(c: Controller, elapsed: real): (r: Controller)
    ensures r.shineDuration == c.shineDuration
    ensures r.carParked == c.carParked && r.movementDetected == c.movementDetected
    ensures !c.carParked ==> !r.lightOn
    ensures r.lightOn ==> r.timeLightOn <= c.shineDuration
    ensures c.movementDetected && c.carParked && elapsed <= c.shineDuration ==>
              r.lightOn && r.timeLightOn == elapsed
    ensures r.lightOn && !c.lightOn ==> c.movementDetected && c.carParked
    ensures !(c.movementDetected && c.carParked) && r.lightOn ==>
              r.timeLightOn == c.timeLightOn + elapsed
    ensures c.movementDetected && c.carParked ==>
              r.timeLightOn == elapsed && (r.lightOn <==> elapsed <= c.shineDuration)
    ensures c.lightOn && !(c.movementDetected && c.carParked) ==>
              r.timeLightOn == c.timeLightOn + elapsed
              && (r.lightOn <==> c.carParked && c.timeLightOn + elapsed <= c.shineDuration)
    ensures !c.lightOn && !(c.movementDetected && c.carParked) ==> r == c
  {
    var restarted :=
      if c.movementDetected && c.carParked then
        var reset := c.(timeLightOn := 0.0);
        if !reset.lightOn then ChangeLightState(reset, true) else reset
      else c;
    if restarted.lightOn then
      var counted := restarted.(timeLightOn := restarted.timeLightOn + elapsed);
      if counted.timeLightOn > counted.shineDuration || !counted.carParked then
        ChangeLightState(counted, false)
      else counted
    else restarted
  }

  /** Running total of a sequence of elapsed times. */
  function Sum(es: seq<real>): real
    decreases |es|
  {
    if es == [] then 0.0 else es[0] + Sum(es[1..])
  }

  lemma {:induction false} SumNonNegative(es: seq<real>)
    requires forall i :: 0 <= i < |es| ==> es[i] >= 0.0
    ensures Sum(es) >= 0.0
    decreases |es|
  {
    if es != [] {
      SumNonNegative(es[1..]);
    }
  }

  /** The controller after one tick per elapsed time, with no events
      delivered in between. */
  function Run(c: Controller, es: seq<real>): (r: Controller)
    ensures r.shineDuration == c.shineDuration
    ensures r.carParked == c.carParked && r.movementDetected == c.movementDetected
    decreases |es|
  {
    if es == [] then c else Run(Tick(c, es[0]), es[1..])
  }

  /** Without movement the light never comes on, and a light that is
      already on stays on only while its timer, counted from where it
      was, has not passed the shine duration: the total time lit is
      bounded by `shineDuration`. Conversely, next to a parked car and
      with non-negative ticks, a lit light does stay on as long as that
      total is within the shine duration. */
  lemma {:induction false} QuietShineBounded(c: Controller, es: seq<real>)
    requires !c.movementDetected
    requires c.lightOn ==> c.timeLightOn <= c.shineDuration
    ensures var r := Run(c, es);
      r.lightOn ==> c.lightOn && r.timeLightOn == c.timeLightOn + Sum(es) && r.timeLightOn <= c.shineDuration
    ensures (c.lightOn && c.carParked && (forall i :: 0 <= i < |es| ==> es[i] >= 0.0)
             && c.timeLightOn + Sum(es) <= c.shineDuration) ==> Run(c, es).lightOn
    decreases |es|
  {
    if es != [] {
      var t := Tick(c, es[0]);
      QuietShineBounded(t, es[1..]);
      if forall i :: 0 <= i < |es| ==> es[i] >= 0.0 {
        SumNonNegative(es[1..]);
      }
      if !t.lightOn {
        QuietStaysDark(t, es[1..]);
      }
    }
  }

  /** Without movement a dark floodlight stays dark. */
  lemma {:induction false} QuietStaysDark(c: Controller, es: seq<real>)
    requires !c.movementDetected && !c.lightOn
    ensures Run(c, es) == c
    decreases |es|
  {
    if es != [] {
      QuietStaysDark(c, es[1..]);
    }
  }
}

=== FILE: movement.dfy ===
/** The passive-infrared edge detector (`MovementDetector` in run.py): it
    remembers the previous reading and announces every change. */
module Movement {

  datatype Detector = Detector(last: bool)

  /** The two event channels a movement detector owns. */
  datatype Event = MovementDetected | MovementCeased

  /** `__init__`: the previous reading starts out false. */
  function Init(): (m: Detector)
    ensures !m.last
  {
    Detector(false)
  }

  /** `tick`, with the reading `haveDetected()` passed in. */
  function Tick(m: Detector, reading: bool): (r: (Detector, seq<Event>))
    ensures r.0.last == reading
    ensures |r.1| == (if reading != m.last then 1 else 0)
    ensures forall i :: 0 <= i < |r.1| ==> (r.1[i] == MovementDetected <==> reading)
  {
    if m.last != reading then
      (Detector(reading), if reading then [MovementDetected] else [MovementCeased])
    else
      (m, [])
  }

  /** The detector after one tick per reading, with all events in order. */
  function Run(m: Detector, readings: seq<bool>): (r: (Detector, seq<Event>))
    ensures readings == [] ==> r.0 == m
    ensures readings != [] ==> r.0.last == readings[|readings| - 1]
    ensures |r.1| <= |readings|
    decreases |readings|
  {
    if readings == [] then (m, [])
    else
      var s := Tick(m, readings[0]);
      var rest := Run(s.0, readings[1..]);
      (rest.0, s.1 + rest.1)
  }

  /** The number of positions at which a reading differs from the one
      before it, starting from `previous`. */
  function Changes(previous: bool, readings: seq<bool>): nat
    decreases |readings|
  {
    if readings == [] then 0
    else (if readings[0] != previous then 1 else 0) + Changes(readings[0], readings[1..])
  }

  /** The state an observer of the two channels would believe in. */
  function Believed(believed: bool, events: seq<Event>): bool
    decreases |events|
  {
    if events == [] then believed
    else Believed(events[0] == MovementDetected, events[1..])
  }

  /** Consecutive events differ, and the first one announces the opposite
      of `believed`. */
  predicate Alternates(believed: bool, events: seq<Event>)
    decreases |events|
  {
    events == [] || ((events[0] == MovementDetected) != believed && Alternates(!believed, events[1..]))
  }

  /** Over any run, exactly one event fires per change of reading, the
      events alternate starting from the remembered reading, and an
      observer of them ends up believing the last reading. */
  lemma {:induction false} RunAnnouncesChanges(m: Detector, readings: seq<bool>)
    ensures |Run(m, readings).1| == Changes(m.last, readings)
    ensures Alternates(m.last, Run(m, readings).1)
    ensures Believed(m.last, Run(m, readings).1) == Run(m, readings).0.last
    decreases |readings|
  {
    if readings != [] {
      var s := Tick(m, readings[0]);
      RunAnnouncesChanges(s.0, readings[1..]);
      var rest := Run(s.0, readings[1..]).1;
      if s.1 == [] {
        assert s.1 + rest == rest;
      } else {
        assert s.1 == [s.1[0]];
        assert (s.1 + rest)[0] == s.1[0];
        assert (s.1 + rest)[1..] == rest;
      }
    }
  }

  /** Readings equal to the remembered one fire nothing and change nothing. */
  lemma {:induction false} SteadyReadingsFireNothing(m: Detector, readings: seq<bool>)
    requires forall i :: 0 <= i < |readings| ==> readings[i] == m.last
    ensures Run(m, readings) == (m, [])
    decreases |readings|
  {
    if readings != [] {
      SteadyReadingsFireNothing(m, readings[1..]);
    }
  }

  /** Toggling the reading true, false, true from start-up announces
      movement, its end and movement again, once each. */
  lemma Toggle()
    ensures Run(Init(), [true, false, true]).1 == [MovementDetected, MovementCeased, MovementDetected]
  {
  }
}

=== FILE: outcome.dfy ===
/** The outcome of an operation that may raise: a value, or the error it
    raised. */
module Outcome {

  datatype Result<+T, +E> = Ok(value: T) | Err(error: E)
}

=== FILE: presence.dfy ===
/** The debounced car-presence detector (`CarDetector` in run.py): a raw
    proximity reading is turned into the lifecycle
    Absent -> Detecting -> Detected -> Parked -> Leaving -> Absent,
    where sensor edges move the machine at once and accumulated time in a
    state confirms it. */
module Presence {
  import opened Outcome

  /** The five lifecycle stages (`ParkedState`). */
  datatype State = Absent | Detecting | Detected | Parked | Leaving

  /** The three confirmation windows, fixed at construction. */
  datatype Config = Config(durationDetecting: real, durationDetected: real, durationLeaving: real)

  /** The detector's mutable part: its stage, the time accumulated in it
      and the raw reading seen on the previous tick (`_lastWasParked`). */
  datatype Detector = Detector(config: Config, state: State, timeInState: real, lastWasParked: bool)

  /** The three event channels a detector owns. */
  datatype Event = CarPresent | CarParked | CarLeft

  /** One performed transition, as `_transition` announces it. */
  datatype Move = Move(from: State, to: State)

  /** The exception `_transitionError` raises. */
  datatype TransitionError = CannotTransition(from: State, to: State)

  /** What an operation leaves behind: the new detector, the events fired
      in order, and the transitions performed in order. */
  datatype Step = Step(detector: Detector, events: seq<Event>, moves: seq<Move>)

  /** The legal transition graph, written as a plain table. */
  const Edges: set<Move> := {
    Move(Absent, Detecting),
    Move(Detecting, Absent), Move(Detecting, Detected),
    Move(Detected, Absent), Move(Detected, Parked),
    Move(Parked, Leaving),
    Move(Leaving, Absent), Move(Leaving, Parked)
  }

  /** The edges a confirmation window drives. */
  const TimedEdges: set<Move> := {
    Move(Detecting, Detected), Move(Detected, Parked), Move(Leaving, Absent)
  }

  /** The stages in which a car is considered to occupy the bay: what the
      floodlight's `_carParked` flag tracks through `carParked`/`carLeft`. */
  predicate Occupied(s: State) {
    s == Parked || s == Leaving
  }

  /** The stages that agree with a positive raw reading. */
  predicate Present(s: State) {
    s == Detecting || s == Detected || s == Parked
  }

  /** `isParked`. */
  predicate IsParked(d: Detector)
    ensures IsParked(d) <==> Occupied(d.state) && Present(d.state)
  {
    d.state == Parked
  }

  /** `moves` is a connected path of transitions from `s` to `t`. */
  predicate Chains(s: State, moves: seq<Move>, t: State)
    decreases |moves|
  {
    if moves == [] then s == t
    else moves[0].from == s && Chains(moves[0].to, moves[1..], t)
  }

  lemma {:induction false} ChainsAppend(s: State, a: seq<Move>, m: State, b: seq<Move>, t: State)
    requires Chains(s, a, m) && Chains(m, b, t)
    ensures Chains(s, a + b, t)
    decreases |a|
  {
    if a == [] {
      assert a + b == b;
    } else {
      assert (a + b)[0] == a[0];
      assert (a + b)[1..] == a[1..] + b;
      ChainsAppend(a[0].to, a[1..], m, b, t);
    }
  }

  /** The check `_transition` performs before changing anything. */
  predicate Allowed(from: State, to: State)
    ensures Allowed(from, to) <==> Move(from, to) in Edges
  {
    match from
    case Absent => to == Detecting
    case Detecting => to == Absent || to == Detected
    case Detected => to == Absent || to == Parked
    case Parked => to == Leaving
    case Leaving => to == Absent || to == Parked
  }

  /** The events `_transition` fires after the state has changed. */
  function Fired(from: State, to: State): (r: seq<Event>)
    ensures Move(from, to) in Edges ==> |r| <= 1
    ensures CarPresent in r <==> to == Detected
    ensures CarParked in r <==> from == Detected && to == Parked
    ensures CarLeft in r <==> from == Leaving && to == Absent
  {
    (if to == Detected then [CarPresent] else [])
    + (if from == Detected && to == Parked then [CarParked] else [])
    + (if from == Leaving && to == Absent then [CarLeft] else [])
  }

  /** `_transition`: raise unless the edge is in the graph; otherwise
      switch state, reset the timer and fire the matching event. */
  function Transition(d: Detector, to: State): (r: Result<Step, TransitionError>)
    ensures r.Ok? <==> Move(d.state, to) in Edges
    ensures r.Err? ==> r.error == CannotTransition(d.state, to)
    ensures r.Ok? ==> r.value.moves == [Move(d.state, to)]
    ensures r.Ok? ==> r.value.detector.state == to && r.value.detector.timeInState == 0.0
    ensures r.Ok? ==> r.value.detector.config == d.config
    ensures r.Ok? ==> r.value.detector.lastWasParked == d.lastWasParked
    ensures r.Ok? ==> |r.value.events| <= 1
    ensures r.Ok? ==> (CarPresent in r.value.events <==> to == Detected)
    ensures r.Ok? ==> (CarParked in r.value.events <==> d.state == Detected && to == Parked)
    ensures r.Ok? ==> (CarLeft in r.value.events <==> d.state == Leaving && to == Absent)
  {
    if !Allowed(d.state, to) then Err(CannotTransition(d.state, to))
    else Ok(Step(d.(state := to, timeInState := 0.0), Fired(d.state, to), [Move(d.state, to)]))
  }

  /** A step that changes nothing and fires nothing. */
  function Stay(d: Detector): Result<Step, TransitionError> {
    Ok(Step(d, [], []))
  }

  /** `_onSensorPositive`: the raw reading has become true. */
  function OnSensorPositive(d: Detector): (r: Result<Step, TransitionError>)
    ensures r.Ok?
    ensures Present(r.value.detector.state)
    ensures r.value.moves == [] <==> Present(d.state)
    ensures r.value.moves == [] ==> r.value.detector == d && r.value.events == []
    ensures r.value.moves != [] ==> r.value.moves == [Move(d.state, r.value.detector.state)]
    ensures r.value.moves != [] ==> Move(d.state, r.value.detector.state) in Edges
    ensures r.value.detector.config == d.config && r.value.detector.lastWasParked == d.lastWasParked
    ensures r.value.moves != [] ==> r.value.detector.timeInState == 0.0
    ensures r.value.events == []
  {
    match d.state
    case Absent => Transition(d, Detecting)
    case Leaving => Transition(d, Parked)
    case _ => Stay(d)
  }

  /** `_onSensorNegative`: the raw reading has become false. */
  function OnSensorNegative(d: Detector): (r: Result<Step, TransitionError>)
    ensures r.Ok?
    ensures !Present(r.value.detector.state)
    ensures r.value.moves == [] <==> !Present(d.state)
    ensures r.value.moves == [] ==> r.value.detector == d && r.value.events == []
    ensures r.value.moves != [] ==> r.value.moves == [Move(d.state, r.value.detector.state)]
    ensures r.value.moves != [] ==> Move(d.state, r.value.detector.state) in Edges
    ensures r.value.detector.config == d.config && r.value.detector.lastWasParked == d.lastWasParked
    ensures r.value.moves != [] ==> r.value.detector.timeInState == 0.0
    ensures r.value.events == []
  {
    match d.state
    case Detecting => Transition(d, Absent)
    case Detected => Transition(d, Absent)
    case Parked => Transition(d, Leaving)
    case _ => Stay(d)
  }

  /** The window has run out: the time accumulated in a timed stage is
      strictly greater than that stage's configured duration. */
  predicate Expired(d: Detector)
    ensures Expired(d) ==> exists next :: Move(d.state, next) in TimedEdges
  {
    match d.state
    case Detecting => d.timeInState > d.config.durationDetecting
    case Detected => d.timeInState > d.config.durationDetected
    case Leaving => d.timeInState > d.config.durationLeaving
    case _ => false
  }

  /** The edge-triggered half of `tick`: react to a change of the raw
      reading and remember the reading. */
  function EdgeStep(d: Detector, reading: bool): (r: Result<Step, TransitionError>)
    ensures r.Ok?
    ensures r.value.detector.lastWasParked == reading
    ensures r.value.detector.config == d.config
    ensures r.value.events == []
    ensures |r.value.moves| <= 1
    ensures r.value.moves != [] ==> d.lastWasParked != reading
    ensures r.value.moves != [] ==> r.value.moves[0] in Edges && r.value.moves[0] !in TimedEdges
    ensures Chains(d.state, r.value.moves, r.value.detector.state)
    ensures r.value.moves == [] ==> r.value.detector.timeInState == d.timeInState
    ensures r.value.moves != [] ==> r.value.detector.timeInState == 0.0
    ensures d.lastWasParked != reading ==> (Present(r.value.detector.state) <==> reading)
    ensures d.lastWasParked == reading ==> r.value.moves == [] && r.value.detector == d
    ensures d.lastWasParked != reading ==> (r.value.moves != [] <==> Present(d.state) != reading)
  {
    if d.lastWasParked != reading then
      match if reading then OnSensorPositive(d) else OnSensorNegative(d)
      case Err(e) => Err(e)
      case Ok(s) => Ok(s.(detector := s.detector.(lastWasParked := reading)))
    else
      Stay(d.(lastWasParked := reading))
  }

  /** The level-triggered half of `tick`: confirm a timed stage once its
      window has run out. */
  function TimeStep(d: Detector): (r: Result<Step, TransitionError>)
    ensures r.Ok?
    ensures r.value.moves != [] <==> Expired(d)
    ensures r.value.moves == [] ==> r.value.detector == d && r.value.events == []
    ensures r.value.moves != [] ==> r.value.moves == [Move(d.state, r.value.detector.state)]
    ensures r.value.moves != [] ==> Move(d.state, r.value.detector.state) in TimedEdges
    ensures r.value.moves != [] ==> r.value.detector.timeInState == 0.0
    ensures r.value.detector.config == d.config && r.value.detector.lastWasParked == d.lastWasParked
    ensures |r.value.events| <= 1
    ensures CarPresent in r.value.events <==> Expired(d) && d.state == Detecting
    ensures CarParked in r.value.events <==> Expired(d) && d.state == Detected
    ensures CarLeft in r.value.events <==> Expired(d) && d.state == Leaving
  {
    match d.state
    case Detecting => if d.timeInState > d.config.durationDetecting then Transition(d, Detected) else Stay(d)
    case Detected => if d.timeInState > d.config.durationDetected then Transition(d, Parked) else Stay(d)
    case Leaving => if d.timeInState > d.config.durationLeaving then Transition(d, Absent) else Stay(d)
    case _ => Stay(d)
  }

  /** How the two halves of a tick combine, stated over the halves'
      contracts only: at most one edge move followed by at most one timed
      move, so every property of a tick follows from those of its halves. */
  lemma Compose(d: Detector, elapsed: real, reading: bool, edge: Step, timed: Step)
    requires edge.detector.lastWasParked == reading && edge.detector.config == d.config
    requires edge.events == [] && |edge.moves| <= 1
    requires edge.moves != [] ==> edge.moves[0] in Edges && edge.moves[0] !in TimedEdges
    requires Chains(d.state, edge.moves, edge.detector.state)
    requires edge.moves == [] ==> edge.detector.timeInState == d.timeInState + elapsed
    requires edge.moves != [] ==> edge.detector.timeInState == 0.0
    requires timed.moves == [] ==> timed.detector == edge.detector && timed.events == []
    requires timed.moves != [] ==> timed.moves == [Move(edge.detector.state, timed.detector.state)]
    requires timed.moves != [] ==> Move(edge.detector.state, timed.detector.state) in TimedEdges
    requires timed.moves != [] ==> timed.detector.timeInState == 0.0
    requires timed.detector.config == edge.detector.config
    requires timed.detector.lastWasParked == edge.detector.lastWasParked
    requires |timed.events| <= 1
    requires CarPresent in timed.events <==> timed.moves != [] && edge.detector.state == Detecting
    requires CarParked in timed.events <==> timed.moves != [] && edge.detector.state == Detected
    requires CarLeft in timed.events <==> timed.moves != [] && edge.detector.state == Leaving
    ensures var r := Step(timed.detector, edge.events + timed.events, edge.moves + timed.moves);
      && r.detector.config == d.config
      && r.detector.lastWasParked == reading
      && (forall i :: 0 <= i < |r.moves| ==> r.moves[i] in Edges)
      && Chains(d.state, r.moves, r.detector.state)
      && |r.moves| <= 2
      && (r.moves == [] <==> r.detector.state == d.state)
      && (r.moves == [] ==> r.detector.timeInState == d.timeInState + elapsed)
      && (r.moves != [] ==> r.detector.timeInState == 0.0)
      && |r.events| <= 1
      && (CarPresent in r.events <==> d.state != Detected && r.detector.state == Detected)
      && (CarParked in r.events <==> Move(Detected, Parked) in r.moves)
      && (CarLeft in r.events <==> Move(Leaving, Absent) in r.moves)
      && (CarParked in r.events <==> d.state == Detected && r.detector.state == Parked)
      && (CarLeft in r.events ==> Occupied(d.state))
      && Occupied(r.detector.state) ==
           if CarParked in r.events then true
           else if CarLeft in r.events then false
           else Occupied(d.state)
  {
    ChainsAppend(d.state, edge.moves, edge.detector.state, timed.moves, timed.detector.state);
    assert edge.events + timed.events == timed.events;
  }

  /** `tick(elapsed)`, with the raw reading `_isDetected()` passed in. */
  function Tick(d: Detector, elapsed: real, reading: bool): (r: Result<Step, TransitionError>)
    ensures r.Ok?
    ensures r.value.detector.config == d.config
    ensures r.value.detector.lastWasParked == reading
    ensures forall i :: 0 <= i < |r.value.moves| ==> r.value.moves[i] in Edges
    ensures Chains(d.state, r.value.moves, r.value.detector.state)
    ensures |r.value.moves| <= 2
    ensures (d.config.durationDetecting >= 0.0 && d.config.durationDetected >= 0.0 && d.config.durationLeaving >= 0.0)
              ==> |r.value.moves| <= 1
    ensures r.value.moves == [] <==> r.value.detector.state == d.state
    ensures r.value.moves == [] ==> r.value.detector.timeInState == d.timeInState + elapsed
    ensures r.value.moves != [] ==> r.value.detector.timeInState == 0.0
    ensures |r.value.events| <= 1
    ensures CarPresent in r.value.events <==> d.state != Detected && r.value.detector.state == Detected
    ensures CarParked in r.value.events <==> Move(Detected, Parked) in r.value.moves
    ensures CarLeft in r.value.events <==> Move(Leaving, Absent) in r.value.moves
    ensures CarParked in r.value.events <==> d.state == Detected && r.value.detector.state == Parked
    ensures CarLeft in r.value.events ==> Occupied(d.state)
    ensures d.lastWasParked == reading ==>
              (r.value.moves != [] <==> Expired(d.(timeInState := d.timeInState + elapsed)))
    ensures Coherent(d) && d.lastWasParked != reading ==> r.value.moves != []
    ensures Occupied(r.value.detector.state) ==
              if CarParked in r.value.events then true
              else if CarLeft in r.value.events then false
              else Occupied(d.state)
  {
    var counted := d.(timeInState := d.timeInState + elapsed);
    match EdgeStep(counted, reading)
    case Err(e) => Err(e)
    case Ok(edge) =>
      match TimeStep(edge.detector)
      case Err(e) => Err(e)
      case Ok(timed) =>
        Compose(d, elapsed, reading, edge, timed);
        Ok(Step(timed.detector, edge.events + timed.events, edge.moves + timed.moves))
  }

  /** `__init__` as written: the stage is seeded from one reading, but the
      remembered reading is always false. */
  function Init(config: Config, reading: bool): (d: Detector)
    ensures d.config == config && d.timeInState == 0.0
    ensures d.state == Parked || d.state == Absent
    ensures IsParked(d) <==> reading
    ensures !d.lastWasParked
  {
    Detector(config, if reading then Parked else Absent, 0.0, false)
  }

  /** The seed with the remembered reading taken from the same reading
      that chose the stage. */
  function InitSeeded(config: Config, reading: bool): (d: Detector)
    ensures d.config == config && d.timeInState == 0.0
    ensures d.state == Parked || d.state == Absent
    ensures IsParked(d) <==> reading
    ensures Coherent(d)
  {
    Detector(config, if reading then Parked else Absent, 0.0, reading)
  }

  /** The stage agrees with the last raw reading. */
  predicate Coherent(d: Detector) {
    Present(d.state) <==> d.lastWasParked
  }

  /** Coherent, or the as-written `Parked` seed whose remembered reading
      is false. */
  predicate SeedCoherent(d: Detector) {
    Coherent(d) || (d.state == Parked && !d.lastWasParked)
  }
}

=== FILE: presence_trace.dfy ===
/** Runs of the car-presence detector over a sequence of ticks, and the
    properties that hold along every run. */
module PresenceTrace {
  import opened Presence

  /** One poll of the main loop: the elapsed time passed to `tick` and the
      raw proximity reading seen during it. */
  datatype Sample = Sample(elapsed: real, reading: bool)

  /** The detector after ticking once per sample, with every event and
      every transition of the run in order. */
  function Run(d: Detector, samples: seq<Sample>): (r: Step)
    ensures r.detector.config == d.config
    ensures forall i :: 0 <= i < |r.moves| ==> r.moves[i] in Edges
    ensures Chains(d.state, r.moves, r.detector.state)
    ensures samples != [] ==> r.detector.lastWasParked == samples[|samples| - 1].reading
    ensures samples == [] ==> r.detector == d
    decreases |samples|
  {
    if samples == [] then Step(d, [], [])
    else
      var s := Tick(d, samples[0].elapsed, samples[0].reading).value;
      var rest := Run(s.detector, samples[1..]);
      ChainsAppend(d.state, s.moves, s.detector.state, rest.moves, rest.detector.state);
      assert forall i :: |s.moves| <= i < |s.moves + rest.moves| ==>
        (s.moves + rest.moves)[i] == rest.moves[i - |s.moves|];
      Step(rest.detector, s.events + rest.events, s.moves + rest.moves)
  }

  /** A tick keeps the stage in agreement with the last raw reading. */
  lemma TickPreservesCoherent(d: Detector, elapsed: real, reading: bool)
    requires Coherent(d)
    ensures Coherent(Tick(d, elapsed, reading).value.detector)
  {
  }

  /** From the as-written `Parked` seed (remembered reading false), a tick
      either restores agreement or, on a false reading, leaves the seed
      exactly as it was apart from its timer. */
  lemma TickFromSeed(d: Detector, elapsed: real, reading: bool)
    requires d.state == Parked && !d.lastWasParked
    ensures var r := Tick(d, elapsed, reading).value;
      && (reading ==> Coherent(r.detector) && r.detector.state == Parked)
      && (!reading ==> r.detector.state == Parked && !r.detector.lastWasParked)
      && r.events == [] && r.moves == []
  {
  }

  lemma {:induction false} RunPreservesCoherent(d: Detector, samples: seq<Sample>)
    requires Coherent(d)
    ensures Coherent(Run(d, samples).detector)
    decreases |samples|
  {
    if samples != [] {
      TickPreservesCoherent(d, samples[0].elapsed, samples[0].reading);
      RunPreservesCoherent(Tick(d, samples[0].elapsed, samples[0].reading).value.detector, samples[1..]);
    }
  }

  /** Along a run from the as-written seed the stage disagrees with the
      last reading exactly when the car was seen at start-up and the
      sensor has read false ever since; the detector then still says
      `Parked` and has fired nothing. */
  lemma {:induction false} SeedIncoherentIff(d: Detector, samples: seq<Sample>)
    requires SeedCoherent(d)
    ensures var r := Run(d, samples);
      && SeedCoherent(r.detector)
      && (!Coherent(r.detector) <==>
            !Coherent(d) && forall i :: 0 <= i < |samples| ==> !samples[i].reading)
      && (!Coherent(r.detector) ==> r.detector.state == Parked && r.events == [])
    decreases |samples|
  {
    if samples != [] {
      var s := Tick(d, samples[0].elapsed, samples[0].reading).value;
      if Coherent(d) {
        TickPreservesCoherent(d, samples[0].elapsed, samples[0].reading);
        RunPreservesCoherent(s.detector, samples[1..]);
      } else {
        TickFromSeed(d, samples[0].elapsed, samples[0].reading);
        SeedIncoherentIff(s.detector, samples[1..]);
        assert forall i :: 1 <= i < |samples| ==> samples[i] == samples[1..][i - 1];
      }
    }
  }

  /** Every state reachable from the as-written start-up agrees with the
      last reading, except a `Parked` seed that has only seen false. */
  lemma ReachableFromInit(config: Config, first: bool, samples: seq<Sample>)
    ensures SeedCoherent(Run(Init(config, first), samples).detector)
    ensures !Coherent(Run(Init(config, first), samples).detector) <==>
              first && forall i :: 0 <= i < |samples| ==> !samples[i].reading
  {
    SeedIncoherentIff(Init(config, first), samples);
  }

  /** With the corrected seed every reachable state agrees with the last
      reading: `Parked` always means the sensor last read true. */
  lemma ReachableFromSeeded(config: Config, first: bool, samples: seq<Sample>)
    ensures Coherent(Run(InitSeeded(config, first), samples).detector)
  {
    RunPreservesCoherent(InitSeeded(config, first), samples);
  }

  /** The as-written seed: a car seen at start-up that is gone by the first
      tick is reported `Parked` for as long as the sensor reads false. */
  lemma SeedStuckParked(config: Config, samples: seq<Sample>)
    requires forall i :: 0 <= i < |samples| ==> !samples[i].reading
    ensures Run(Init(config, true), samples).detector.state == Parked
    ensures Run(Init(config, true), samples).events == []
  {
    SeedIncoherentIff(Init(config, true), samples);
  }

  /** The corrected seed: the same start-up leaves `Parked` on the first
      tick that reads false. */
  lemma SeededLeavesAtOnce(config: Config, elapsed: real)
    requires config.durationLeaving >= 0.0
    ensures Tick(InitSeeded(config, true), elapsed, false).value.detector.state == Leaving
  {
  }

  /** With non-negative windows a tick performs at most one transition, so
      the new stage is the old one or one legal edge away. */
  lemma TickMovesOnce(d: Detector, elapsed: real, reading: bool)
    requires d.config.durationDetecting >= 0.0 && d.config.durationDetected >= 0.0
    requires d.config.durationLeaving >= 0.0
    ensures var r := Tick(d, elapsed, reading).value;
      && |r.moves| <= 1
      && (r.detector.state == d.state || Move(d.state, r.detector.state) in Edges)
      && (CarLeft in r.events <==> d.state == Leaving && r.detector.state == Absent)
  {
  }

  /** When the reading does not change, a tick moves exactly when the
      accumulated time is strictly past the stage's window. */
  lemma SteadyReadingConfirms(d: Detector, elapsed: real)
    ensures var r := Tick(d, elapsed, d.lastWasParked).value;
      r.moves != [] <==> Expired(d.(timeInState := d.timeInState + elapsed))
  {
  }

  /** A car that drives off and comes back before the leaving window runs
      out goes `Parked -> Leaving -> Parked` and no departure is announced,
      however long the second tick was: the edge is handled before the
      window is checked. */
  lemma LeavingBounce(d: Detector, e1: real, e2: real)
    requires d.state == Parked && d.lastWasParked
    requires d.config.durationLeaving >= 0.0
    ensures var s1 := Tick(d, e1, false).value;
      var s2 := Tick(s1.detector, e2, true).value;
      && s1.detector.state == Leaving && s1.events == []
      && s2.detector.state == Parked && s2.events == []
  {
  }

  /** Occupancy as a subscriber to `carParked` and `carLeft` keeps it. */
  function Heard(occupied: bool, e: Event): bool {
    match e
    case CarParked => true
    case CarLeft => false
    case CarPresent => occupied
  }

  function Track(occupied: bool, events: seq<Event>): bool
    decreases |events|
  {
    if events == [] then occupied
    else Track(Heard(occupied, events[0]), events[1..])
  }

  /** `carParked` only arrives while the bay is free and `carLeft` only
      while it is occupied. */
  predicate OccupancyAlternates(occupied: bool, events: seq<Event>)
    decreases |events|
  {
    if events == [] then true
    else
      && (events[0] == CarParked ==> !occupied)
      && (events[0] == CarLeft ==> occupied)
      && OccupancyAlternates(Heard(occupied, events[0]), events[1..])
  }

  lemma {:induction false} TrackAppend(occupied: bool, a: seq<Event>, b: seq<Event>)
    ensures Track(occupied, a + b) == Track(Track(occupied, a), b)
    ensures OccupancyAlternates(occupied, a + b) == (OccupancyAlternates(occupied, a) && OccupancyAlternates(Track(occupied, a), b))
    decreases |a|
  {
    if a == [] {
      assert a + b == b;
    } else {
      assert (a + b)[0] == a[0];
      assert (a + b)[1..] == a[1..] + b;
      TrackAppend(Heard(occupied, a[0]), a[1..], b);
    }
  }

  /** One tick fires at most one of `carParked`/`carLeft`, in the right
      order, and replaying it gives the new occupancy. */
  lemma TickTracksOccupancy(d: Detector, elapsed: real, reading: bool)
    ensures var s := Tick(d, elapsed, reading).value;
      && OccupancyAlternates(Occupied(d.state), s.events)
      && Track(Occupied(d.state), s.events) == Occupied(s.detector.state)
  {
    var s := Tick(d, elapsed, reading).value;
    if s.events != [] {
      assert s.events == [s.events[0]];
    }
  }

  /** Over any run, the `carParked`/`carLeft` stream alternates and
      replaying it yields exactly whether the final stage is `Parked` or
      `Leaving`. */
  lemma {:induction false} RunTracksOccupancy(d: Detector, samples: seq<Sample>)
    ensures OccupancyAlternates(Occupied(d.state), Run(d, samples).events)
    ensures Track(Occupied(d.state), Run(d, samples).events) == Occupied(Run(d, samples).detector.state)
    decreases |samples|
  {
    if samples != [] {
      var s := Tick(d, samples[0].elapsed, samples[0].reading).value;
      RunTracksOccupancy(s.detector, samples[1..]);
      TickTracksOccupancy(d, samples[0].elapsed, samples[0].reading);
      TrackAppend(Occupied(d.state), s.events, Run(s.detector, samples[1..]).events);
    }
  }

  /** One tick, then the rest of the run. */
  lemma RunUnfold(d: Detector, samples: seq<Sample>)
    requires samples != []
    ensures var s := Tick(d, samples[0].elapsed, samples[0].reading).value;
      var rest := Run(s.detector, samples[1..]);
      Run(d, samples) == Step(rest.detector, s.events + rest.events, s.moves + rest.moves)
  {
  }

  lemma Singleton<T>(xs: seq<T>, x: T)
    requires |xs| <= 1 && x in xs
    ensures xs == [x]
  {
  }

  lemma Pair<T>(xs: seq<T>, ys: seq<T>, x: T, y: T)
    requires xs == [x] && ys == [y]
    ensures xs + ys == [x, y]
  {
  }

  lemma ConcatAssoc<T>(x: seq<T>, y: seq<T>, z: seq<T>)
    ensures x + (y + z) == (x + y) + z
  {
  }

  /** The whole run over `a + b` is the run over `a` followed by the run
      over `b` from where the first one stopped. */
  lemma {:induction false} RunSplit(d: Detector, a: seq<Sample>, b: seq<Sample>)
    ensures Run(d, a + b).detector == Run(Run(d, a).detector, b).detector
    ensures Run(d, a + b).events == Run(d, a).events + Run(Run(d, a).detector, b).events
    ensures Run(d, a + b).moves == Run(d, a).moves + Run(Run(d, a).detector, b).moves
    decreases |a|
  {
    if a == [] {
      assert a + b == b;
    } else {
      assert (a + b)[0] == a[0];
      assert (a + b)[1..] == a[1..] + b;
      var s := Tick(d, a[0].elapsed, a[0].reading).value;
      RunSplit(s.detector, a[1..], b);
      RunUnfold(d, a + b);
      RunUnfold(d, a);
      var first := Run(s.detector, a[1..]);
      var second := Run(first.detector, b);
      ConcatAssoc(s.events, first.events, second.events);
      ConcatAssoc(s.moves, first.moves, second.moves);
    }
  }

  /** `n` polls one second apart, each seeing the car. */
  function Polls(n: nat): seq<Sample> {
    seq(n, _ => Sample(1.0, true))
  }

  lemma RunOneMore(d: Detector, n: nat)
    ensures var r := Run(d, Polls(n));
      var s := Tick(r.detector, 1.0, true).value;
      Run(d, Polls(n + 1)) == Step(s.detector, r.events + s.events, r.moves + s.moves)
  {
    assert Polls(n + 1) == Polls(n) + [Sample(1.0, true)];
    RunSplit(d, Polls(n), [Sample(1.0, true)]);
    RunUnfold(Run(d, Polls(n)).detector, [Sample(1.0, true)]);
    var r := Run(d, Polls(n));
    assert [Sample(1.0, true)][1..] == [];
    var s := Tick(r.detector, 1.0, true).value;
    assert Run(r.detector, [Sample(1.0, true)]) == Step(s.detector, s.events + [], s.moves + []);
    assert s.events + [] == s.events && s.moves + [] == s.moves;
  }

  /** A car first seen from `Absent` is being detected. */
  lemma SeeCar(d: Detector, elapsed: real)
    requires d.state == Absent && !d.lastWasParked && d.config.durationDetecting >= 0.0
    ensures Tick(d, elapsed, true).value.detector == d.(state := Detecting, timeInState := 0.0, lastWasParked := true)
    ensures Tick(d, elapsed, true).value.events == []
  {
  }

  /** A car still seen inside an unexpired window only adds time. */
  lemma Wait(d: Detector, elapsed: real)
    requires d.lastWasParked && (d.state == Detecting || d.state == Detected)
    requires !Expired(d.(timeInState := d.timeInState + elapsed))
    ensures Tick(d, elapsed, true).value.detector == d.(timeInState := d.timeInState + elapsed)
    ensures Tick(d, elapsed, true).value.events == []
  {
  }

  /** A car still seen past its window is confirmed one stage further. */
  lemma Confirm(d: Detector, elapsed: real)
    requires d.lastWasParked && (d.state == Detecting || d.state == Detected)
    requires Expired(d.(timeInState := d.timeInState + elapsed))
    ensures Tick(d, elapsed, true).value.detector ==
      d.(state := if d.state == Detecting then Detected else Parked, timeInState := 0.0)
    ensures Tick(d, elapsed, true).value.events == [if d.state == Detecting then CarPresent else CarParked]
  {
    var s := Tick(d, elapsed, true).value;
    Singleton(s.events, if d.state == Detecting then CarPresent else CarParked);
  }

  /** Polls one to three of the arrival below. */
  lemma {:induction false} ArrivalDetecting(c: Config, k: nat)
    requires c.durationDetecting == 2.0 && c.durationDetected == 5.0
    requires 1 <= k <= 3
    ensures Run(Init(c, false), Polls(k)).detector == Detector(c, Detecting, (k - 1) as real, true)
    ensures Run(Init(c, false), Polls(k)).events == []
  {
    var d0 := Init(c, false);
    var r := Run(d0, Polls(k - 1));
    RunOneMore(d0, k - 1);
    if k == 1 {
      assert r == Step(d0, [], []);
      SeeCar(d0, 1.0);
    } else {
      ArrivalDetecting(c, k - 1);
      Wait(r.detector, 1.0);
    }
  }

  /** Poll four of the arrival below. */
  lemma ArrivalConfirmed(c: Config)
    requires c.durationDetecting == 2.0 && c.durationDetected == 5.0
    ensures Run(Init(c, false), Polls(4)).detector == Detector(c, Detected, 0.0, true)
    ensures Run(Init(c, false), Polls(4)).events == [CarPresent]
  {
    var d0 := Init(c, false);
    var r := Run(d0, Polls(3));
    RunOneMore(d0, 3);
    ArrivalDetecting(c, 3);
    Confirm(r.detector, 1.0);
    assert r.events + [CarPresent] == [CarPresent];
  }

  /** Polls four to nine of the arrival below. */
  lemma {:induction false} ArrivalDetected(c: Config, k: nat)
    requires c.durationDetecting == 2.0 && c.durationDetected == 5.0
    requires 4 <= k <= 9
    ensures Run(Init(c, false), Polls(k)).detector == Detector(c, Detected, (k - 4) as real, true)
    ensures Run(Init(c, false), Polls(k)).events == [CarPresent]
  {
    if k == 4 {
      ArrivalConfirmed(c);
    } else {
      var d0 := Init(c, false);
      var r := Run(d0, Polls(k - 1));
      RunOneMore(d0, k - 1);
      ArrivalDetected(c, k - 1);
      Wait(r.detector, 1.0);
      assert r.events + [] == r.events;
    }
  }

  /** Poll ten of the arrival below. */
  lemma ArrivalParked(c: Config)
    requires c.durationDetecting == 2.0 && c.durationDetected == 5.0
    ensures Run(Init(c, false), Polls(10)).detector == Detector(c, Parked, 0.0, true)
    ensures Run(Init(c, false), Polls(10)).events == [CarPresent, CarParked]
  {
    var d0 := Init(c, false);
    var r := Run(d0, Polls(9));
    RunOneMore(d0, 9);
    ArrivalDetected(c, 9);
    Confirm(r.detector, 1.0);
    Pair(r.events, [CarParked], CarPresent, CarParked);
  }

  /** A car arriving at an empty bay, polled every second with windows of
      2 s (detecting) and 5 s (detected) and any leaving window: because a
      window is confirmed only once the time is strictly past it, the
      detector is `Detecting` after ticks 1-3, `Detected` after ticks 4-9
      and `Parked` after tick 10, having announced the car once on
      entering `Detected` and once on parking. */
  lemma ArrivalTiming(c: Config)
    requires c.durationDetecting == 2.0 && c.durationDetected == 5.0
    ensures var d0 := Init(c, false);
      && Run(d0, Polls(3)).detector.state == Detecting
      && Run(d0, Polls(4)).detector.state == Detected
      && Run(d0, Polls(9)).detector.state == Detected
      && Run(d0, Polls(10)).detector.state == Parked
      && Run(d0, Polls(10)).events == [CarPresent, CarParked]
  {
    ArrivalDetecting(c, 3);
    ArrivalDetected(c, 4);
    ArrivalDetected(c, 9);
    ArrivalParked(c);
  }

}

=== FILE: wiring.dfy ===
/** The composition root of run.py: one detector of each kind and the
    floodlight, with the floodlight subscribed to `carParked`, `carLeft`,
    `movementDetected` and `movementCeased`, ticked in the main loop's
    order. */
module Wiring {
  import Presence
  import PresenceTrace
  import Movement
  import FloodLight

  datatype System = System(car: Presence.Detector, movement: Movement.Detector, flood: FloodLight.Controller)

  /** One pass of the main loop: the elapsed time and the two raw readings. */
  datatype Poll = Poll(elapsed: real, car: bool, pir: bool)

  /** The floodlight's handler for one detector event. */
  function HearCar(c: FloodLight.Controller, e: Presence.Event): (r: FloodLight.Controller)
    ensures r.(carParked := c.carParked) == c
    ensures r.carParked == PresenceTrace.Heard(c.carParked, e)
  {
    match e
    case CarParked => FloodLight.OnCarParked(c)
    case CarLeft => FloodLight.OnCarAbsent(c)
    case CarPresent => c
  }

  /** Delivery of the detector's events, in order, to the floodlight:
      its `_carParked` flag ends up as a replay of the stream. */
  function DeliverCar(c: FloodLight.Controller, events: seq<Presence.Event>): (r: FloodLight.Controller)
    ensures r.(carParked := c.carParked) == c
    ensures r.carParked == PresenceTrace.Track(c.carParked, events)
    decreases |events|
  {
    if events == [] then c else DeliverCar(HearCar(c, events[0]), events[1..])
  }

  /** The floodlight's handler for one movement event. */
  function HearMovement(c: FloodLight.Controller, e: Movement.Event): (r: FloodLight.Controller)
    ensures r.(movementDetected := c.movementDetected) == c
    ensures r.movementDetected <==> e == Movement.MovementDetected
  {
    match e
    case MovementDetected => FloodLight.OnMovementDetected(c)
    case MovementCeased => FloodLight.OnMovementCeased(c)
  }

  /** Delivery of the movement detector's events, in order, to the
      floodlight: its `_movementDetected` flag ends up as what the stream
      last announced. */
  function DeliverMovement(c: FloodLight.Controller, events: seq<Movement.Event>): (r: FloodLight.Controller)
    ensures r.(movementDetected := c.movementDetected) == c
    ensures r.movementDetected == Movement.Believed(c.movementDetected, events)
    decreases |events|
  {
    if events == [] then c else DeliverMovement(HearMovement(c, events[0]), events[1..])
  }

  /** The floodlight's `_carParked` flag says whether the detector is
      `Parked` or `Leaving`. */
  predicate Wired(s: System) {
    s.flood.carParked == Presence.Occupied(s.car.state)
  }

  /** The floodlight's `_movementDetected` flag equals the movement
      detector's remembered reading. */
  predicate MovementAgrees(s: System) {
    s.flood.movementDetected == s.movement.last
  }

  /** One main-loop pass: tick the detector, then the movement detector,
      then the floodlight, each event reaching the floodlight as it fires. */
  function Step(s: System, p: Poll): (r: System)
    ensures r.car.lastWasParked == p.car && r.movement.last == p.pir
    ensures r.flood.shineDuration == s.flood.shineDuration
    ensures Wired(s) ==> Wired(r)
    ensures Wired(s) && r.flood.lightOn ==> Presence.Occupied(r.car.state)
    ensures MovementAgrees(s) ==> MovementAgrees(r)
    ensures r.flood.lightOn ==> r.flood.timeLightOn <= s.flood.shineDuration
    ensures r.car == Presence.Tick(s.car, p.elapsed, p.car).value.detector
    ensures r.movement == Movement.Tick(s.movement, p.pir).0
    ensures (Wired(s) && MovementAgrees(s) && p.pir && p.elapsed <= s.flood.shineDuration
             && Presence.Occupied(r.car.state))
              ==> r.flood.lightOn && r.flood.timeLightOn == p.elapsed
  {
    var car := Presence.Tick(s.car, p.elapsed, p.car).value;
    PresenceTrace.TickTracksOccupancy(s.car, p.elapsed, p.car);
    var heardCar := DeliverCar(s.flood, car.events);
    var movement := Movement.Tick(s.movement, p.pir);
    var heardMovement := DeliverMovement(heardCar, movement.1);
    assert movement.1 != [] ==> movement.1 == [movement.1[0]];
    System(car.detector, movement.0, FloodLight.Tick(heardMovement, p.elapsed))
  }

  /** The main loop over a sequence of passes. */
  function Run(s: System, polls: seq<Poll>): (r: System)
    ensures Wired(s) ==> Wired(r)
    ensures MovementAgrees(s) ==> MovementAgrees(r)
    decreases |polls|
  {
    if polls == [] then s else Run(Step(s, polls[0]), polls[1..])
  }

  /** Start-up as written: the detectors are built from their
      constructors and the floodlight from `isParked()` and a fresh
      infrared reading. */
  function InitAsWritten(config: Presence.Config, shineDuration: real, car: bool, pir: bool): (s: System)
    ensures Wired(s)
    ensures s.flood.movementDetected == pir && !s.movement.last
    ensures (s.car.state == Presence.Parked || s.car.state == Presence.Absent) && (Presence.IsParked(s.car) <==> car)
    ensures s.car.config == config && s.car.timeInState == 0.0 && !s.car.lastWasParked
    ensures !s.flood.lightOn && s.flood.timeLightOn == 0.0 && s.flood.shineDuration == shineDuration
  {
    var detector := Presence.Init(config, car);
    System(detector, Movement.Init(), FloodLight.Init(shineDuration, Presence.IsParked(detector), pir))
  }

  /** Start-up with every remembered reading seeded from the readings the
      floodlight was built from. */
  function Init(config: Presence.Config, shineDuration: real, car: bool, pir: bool): (s: System)
    ensures Wired(s) && MovementAgrees(s) && Presence.Coherent(s.car)
    ensures (s.car.state == Presence.Parked || s.car.state == Presence.Absent) && (Presence.IsParked(s.car) <==> car)
    ensures s.car.config == config && s.car.timeInState == 0.0
    ensures s.flood.movementDetected == pir && s.movement.last == pir
    ensures !s.flood.lightOn && s.flood.timeLightOn == 0.0 && s.flood.shineDuration == shineDuration
  {
    var detector := Presence.InitSeeded(config, car);
    System(detector, Movement.Detector(pir), FloodLight.Init(shineDuration, Presence.IsParked(detector), pir))
  }

  /** Under either start-up, on every reachable state the floodlight's
      `_carParked` flag tracks the detector, and the light is only ever on
      while the detector says `Parked` or `Leaving`. */
  lemma ReachableWired(config: Presence.Config, shineDuration: real, car: bool, pir: bool, polls: seq<Poll>)
    ensures Wired(Run(InitAsWritten(config, shineDuration, car, pir), polls))
    ensures Wired(Run(Init(config, shineDuration, car, pir), polls))
  {
  }

  /** With the seeded start-up the floodlight's movement flag always
      equals the movement detector's last reading. */
  lemma ReachableAgrees(config: Presence.Config, shineDuration: real, car: bool, pir: bool, polls: seq<Poll>)
    ensures MovementAgrees(Run(Init(config, shineDuration, car, pir), polls))
  {
  }

  /** The pass that keeps the light on in the as-written start-up: car in
      place, no movement, a short tick. */
  predicate StuckOn(s: System) {
    && s.car.state == Presence.Parked
    && s.flood.carParked
    && s.flood.movementDetected
    && !s.movement.last
  }

  lemma {:induction false} StuckOnPersists(s: System, polls: seq<Poll>)
    requires StuckOn(s)
    requires forall i :: 0 <= i < |polls| ==>
      polls[i].car && !polls[i].pir && polls[i].elapsed <= s.flood.shineDuration
    ensures StuckOn(Run(s, polls))
    ensures polls != [] ==> Run(s, polls).flood.lightOn
    decreases |polls|
  {
    if polls != [] {
      var next := Step(s, polls[0]);
      assert StuckOn(next) && next.flood.lightOn;
      StuckOnPersists(next, polls[1..]);
    }
  }

  /** As written: start-up with the car in place and the infrared sensor
      momentarily active, then the sensor goes quiet. The movement
      detector never announces anything (its remembered reading is already
      false), so the floodlight keeps believing in movement and stays lit
      on every pass, however long no one moves. */
  lemma AsWrittenLightStaysOn(config: Presence.Config, shineDuration: real, polls: seq<Poll>)
    requires polls != []
    requires forall i :: 0 <= i < |polls| ==>
      polls[i].car && !polls[i].pir && polls[i].elapsed <= shineDuration
    ensures Run(InitAsWritten(config, shineDuration, true, true), polls).flood.lightOn
    ensures !Run(InitAsWritten(config, shineDuration, true, true), polls).movement.last
  {
    StuckOnPersists(InitAsWritten(config, shineDuration, true, true), polls);
  }

  /** Seeded: the same start-up announces the end of movement on the first
      pass, and the light never comes on while no one moves. */
  lemma {:induction false} SeededLightStaysOff(s: System, polls: seq<Poll>)
    requires MovementAgrees(s) && !s.movement.last && !s.flood.lightOn
    requires forall i :: 0 <= i < |polls| ==> !polls[i].pir
    ensures !Run(s, polls).flood.lightOn
    decreases |polls|
  {
    if polls != [] {
      SeededLightStaysOff(Step(s, polls[0]), polls[1..]);
    }
  }

  lemma SeededLightGoesOut(config: Presence.Config, shineDuration: real, polls: seq<Poll>)
    requires forall i :: 0 <= i < |polls| ==> !polls[i].pir
    ensures !Run(Init(config, shineDuration, true, true), polls).flood.lightOn
  {
    var s := Init(config, shineDuration, true, true);
    if polls != [] {
      var next := Step(s, polls[0]);
      assert !next.movement.last && MovementAgrees(next);
      assert !next.flood.lightOn;
      SeededLightStaysOff(next, polls[1..]);
    }
  }
}
